=== FILE: README.md ===
# Virtual-to-physical CRD syncer: reconcile decision logic

This project models the reconcile logic of the generic CRD syncer plugin for
vcluster. The plugin keeps a *virtual* custom resource, which lives in the
virtual cluster, and its *physical* copy, which lives in the host cluster, in
step. It is modelled in Dafny as pure functions over immutable data:

- **Documents** (`documents.dfy`): a resource is an unstructured document, a
  `map<string, Value>`. There are accessors for kind, name, namespace and labels,
  and for the `status` field. An absent status reads as `null`, the same as a
  present `null` one.
- **Storage** (`storage.dfy`): what the syncer asks of the two clusters.
  - A client is an opaque oracle. It answers each `Create`, `Patch`,
    `PatchStatus` or `Delete` with either the stored image or an error.
  - Every pass returns a *trace*. The trace records each run of a mutation
    function and each write, tagged with the cluster it went to.
  - There are two kinds of error. A typed API error has a reason, and reason
    `Invalid` marks the invalid class. A formatted error (`fmt.Errorf` with
    `%v`) keeps only the message, so wrapping an error always drops its class.
- **NameResolution** (`name_resolvers.dfy`): the forward resolver (virtual to
  host) and the reverse resolver (host to virtual, through the name cache).
- **Executor** (`executor.dfy`): `executeObjectPatch`. It snapshots the object,
  runs the mutation, and issues a body patch when the status-stripped images
  differ. It then issues a status patch when the statuses differ. Each run maps
  to one of four result kinds, and partial success is reported.
- **FromVirtualSyncer** (`from_virtual_syncer.dfy`): the scope test
  `objectMatches`, `SyncDown` (create the physical object) and `Sync` (one pass
  over an existing pair: delete, then forward patch, then reverse patch).

The rule interpreter, the label selector, the metadata translator, the
physical-name function and the name cache are external. Each is a
function-valued parameter carried by the controller.

Places where the code and its own description part ways; the model follows the code:

- The scope test at `from_virtual_syncer.go:301-303` is `selector == nil || !selector.Matches(labels)`.
  The comment at line 68 ("check if selector matches") says the selector matches.
  `ObjectMatches` is the test as written and `SelectorAdmits` is the documented
  one. `ScopeIsNegatedSelector` and `SelectedObjectIsNotCreated` show that an
  object the selector matches is never created, and `SyncOutOfScopeDeletes` and
  `SelectedObjectIsDeleted` that its physical copy is deleted on its next pass.
- `statusIsSubresource` is hard-coded `true` inside the executor (line 169).
  The controller's own field (declared at line 62, set at line 52) is carried by
  `Controller` but never read.
- Lines 80-82 repeat the error check of lines 77-79 and can never fire. The
  model has the single check.
- Errors from the rule interpreter, including a failed reverse name lookup, are
  formatted with `%v` twice before `Sync` classifies them. So they are never of
  the invalid class and always end the pass as hard errors. Only a refused body
  or status patch can lead to a retry request.

## Model

| member | source | states |
|---|---|---|
| `NameResolution.TranslateName` | generic-crd-plugin/pkg/syncer/from_virtual_syncer.go:305-324 | The forward resolver always succeeds with the physical name of the name in its namespace. The reverse resolver fails exactly when the cache returns the empty name; otherwise it returns the cached name unchanged. Failures are never of the invalid class. |
| `NameResolution.ForwardIgnoresPath` | generic-crd-plugin/pkg/syncer/from_virtual_syncer.go:309-311 | The forward translation is the same whatever field path is given. |
| `NameResolution.ReverseNeverYieldsEmptyName` | generic-crd-plugin/pkg/syncer/from_virtual_syncer.go:317-324 | The reverse translation never succeeds with the empty name. |
| `Executor.Classify` | generic-crd-plugin/pkg/syncer/from_virtual_syncer.go:290-298 | Whether the result kind reports a body write and a status write equals the two flags it is given. The kind is None exactly when neither was written. |
| `Executor.ClassifyRoundTrip` | generic-crd-plugin/pkg/syncer/from_virtual_syncer.go:290-298 | Every result kind is recovered from the two writes it reports. |
| `Executor.BodyOf` | generic-crd-plugin/pkg/syncer/from_virtual_syncer.go:182-192 | The comparison image has no status and keeps every other field of the object unchanged. |
| `Executor.ExecuteObjectPatch` | generic-crd-plugin/pkg/syncer/from_virtual_syncer.go:163-299 | A run starts with the mutation and issues at most two writes, all to its own client. A result that reports a status write carries no error. |
| `Executor.StatusTargetFromBodyReply` | generic-crd-plugin/pkg/syncer/from_virtual_syncer.go:230-256 | The status patch's target is the object as it stands after the body step, with the mutated status attached. After an accepted body patch that object is the client's reply; otherwise it is the mutated object. |
| `Executor.StatusStep` | generic-crd-plugin/pkg/syncer/from_virtual_syncer.go:237-289 | The status step adds at most one status patch to the trace. When it fails, it reports Updated if the body was written and None otherwise. When it succeeds, the result's body flag equals the body step's. |
| `Executor.RunCalls` | generic-crd-plugin/pkg/syncer/from_virtual_syncer.go:194-289 | A failed mutation writes nothing. Any run issues at most two writes, each a body or a status patch. A body patch only ever comes first and a status patch only ever last. Every write but the last was accepted by the client. |
| `Executor.StatusStepCalls` | generic-crd-plugin/pkg/syncer/from_virtual_syncer.go:237-289 | The status step adds to the writes already issued exactly one status patch when the statuses differ, and nothing otherwise. |
| `Executor.StatusCall` | generic-crd-plugin/pkg/syncer/from_virtual_syncer.go:240-264 | The status write is diffed from the full before-image. Its target is the given current object with its status replaced by the mutated status: every other key keeps its value and no key is added. The target is also the object sent. |
| `Executor.MutationError` | generic-crd-plugin/pkg/syncer/from_virtual_syncer.go:197 | A mutation failure is reported as a plain error, never of the invalid class. Its message names the object's kind, namespace and name, followed by the cause's message. |
| `Executor.MutateFailureWritesNothing` | generic-crd-plugin/pkg/syncer/from_virtual_syncer.go:194-198 | A failed mutation issues no write and reports None. Its error names the object and is not of the invalid class. |
| `Executor.BodyPatchIffBodyChanged` | generic-crd-plugin/pkg/syncer/from_virtual_syncer.go:212-235 | After a successful mutation, a body patch is issued if and only if the status-stripped before and after images differ. |
| `Executor.StatusPatchIffStatusChanged` | generic-crd-plugin/pkg/syncer/from_virtual_syncer.go:237-239 | When the body step did not fail, a status patch is issued if and only if a status is present on either side and the statuses differ. |
| `Executor.StatusPatchAgainstFullBeforeImage` | generic-crd-plugin/pkg/syncer/from_virtual_syncer.go:240-264 | Every status patch is computed from the full pre-mutation image, status included. Its target image and sent object carry the mutated status. |
| `Executor.ResultMapping` | generic-crd-plugin/pkg/syncer/from_virtual_syncer.go:241-298 | Without an error, the result kind classifies the writes issued. With an error, the kind is Updated exactly when a body patch went through and the status patch then failed, and None otherwise. |
| `Executor.UnchangedRunWritesNothing` | generic-crd-plugin/pkg/syncer/from_virtual_syncer.go:290-298 | A run that reports None with no error issued no write. |
| `Executor.IdentityMutationIsNoop` | generic-crd-plugin/pkg/syncer/from_virtual_syncer.go:218-237 | A mutation that leaves the object as it was gives None, no error and no write. |
| `Executor.StatusOnlyChange` | generic-crd-plugin/pkg/syncer/from_virtual_syncer.go:237-295 | A change confined to the status gives exactly one status patch and UpdatedStatusOnly. |
| `Executor.BodyDecisionIgnoresStatus` | generic-crd-plugin/pkg/syncer/from_virtual_syncer.go:188-218 | Replacing the status on either side never changes whether the body patch is issued. |
| `Executor.StatusPresenceTestRedundant` | generic-crd-plugin/pkg/syncer/from_virtual_syncer.go:237 | The status test holds exactly when the statuses differ, an absent status counting as null. |
| `FromVirtualSyncer.ObjectMatches` | generic-crd-plugin/pkg/syncer/from_virtual_syncer.go:301-303 | Without a selector every object is in scope. With one, an object is in scope iff the selector does NOT match its labels. |
| `FromVirtualSyncer.SelectorAdmits` | generic-crd-plugin/pkg/syncer/from_virtual_syncer.go:68-71 | The test the comment describes: no selector, or a selector that matches the labels. |
| `FromVirtualSyncer.ScopeIsNegatedSelector` | generic-crd-plugin/pkg/syncer/from_virtual_syncer.go:301-303 | With a selector present, the computed scope is always the opposite of the documented one. Without one, both admit the object. |
| `FromVirtualSyncer.ApplyPatches` | generic-crd-plugin/pkg/syncer/from_virtual_syncer.go:119-123 | Rule application fails exactly when the interpreter fails. It passes the interpreter's document through, and its errors are never of the invalid class. |
| `FromVirtualSyncer.ForwardMutation` | generic-crd-plugin/pkg/syncer/from_virtual_syncer.go:118-124 | The forward mutation applies the forward rules to its target, reading the virtual object and translating names into the virtual object's namespace. It fails exactly when the interpreter fails, and its errors are never of the invalid class. |
| `FromVirtualSyncer.ReverseMutation` | generic-crd-plugin/pkg/syncer/from_virtual_syncer.go:141-147 | The reverse mutation applies the reverse rules to its target, reading the physical object and translating names through the name cache. It fails exactly when the interpreter fails, and its errors are never of the invalid class. |
| `FromVirtualSyncer.SyncDown` | generic-crd-plugin/pkg/syncer/from_virtual_syncer.go:67-93 | Creation never requests a retry and issues at most one write, a physical Create. Out of scope it does nothing and returns no error. |
| `FromVirtualSyncer.SyncDownPatchFailureCreatesNothing` | generic-crd-plugin/pkg/syncer/from_virtual_syncer.go:76-82 | When rule application fails, no Create is issued and the error is the interpreter's, reformatted. |
| `FromVirtualSyncer.SyncDownCreateOutcome` | generic-crd-plugin/pkg/syncer/from_virtual_syncer.go:84-92 | Once the rules apply, exactly one Create of the patched object is issued. Its error is returned unchanged, and no error is returned when it succeeds. |
| `FromVirtualSyncer.SelectedObjectIsNotCreated` | generic-crd-plugin/pkg/syncer/from_virtual_syncer.go:68-71 | An object whose labels the selector matches is never created. |
| `FromVirtualSyncer.PassFailure` | generic-crd-plugin/pkg/syncer/from_virtual_syncer.go:125-133 | An invalid-class error becomes a retry with no error. Any other error becomes a hard error with the given prefix, never of the invalid class. |
| `FromVirtualSyncer.Sync` | generic-crd-plugin/pkg/syncer/from_virtual_syncer.go:95-159 | A retry request never comes with an error. Every pass either issues a single delete of the physical object or starts with the forward mutation. |
| `FromVirtualSyncer.SyncOutOfScopeDeletes` | generic-crd-plugin/pkg/syncer/from_virtual_syncer.go:96-105 | Out of scope, the pass issues exactly one Delete of the physical object and nothing else. The delete's error is returned as is, and otherwise the result is empty with no error. |
| `FromVirtualSyncer.SyncForwardChangeEndsPass` | generic-crd-plugin/pkg/syncer/from_virtual_syncer.go:134-138 | A forward run that wrote anything ends the pass with an empty result and no error. The reverse rules never run. |
| `FromVirtualSyncer.SyncPassesAreExclusive` | generic-crd-plugin/pkg/syncer/from_virtual_syncer.go:117-147 | A pass that wrote to the physical cluster never mutates or writes the virtual object. A pass that mutated the virtual object issued no physical write. |
| `FromVirtualSyncer.SyncReverseRunsIff` | generic-crd-plugin/pkg/syncer/from_virtual_syncer.go:125-147 | The reverse rules run if and only if the object is in scope and the forward run ended with no change and no error. A failed forward run ends the pass just as a forward change does. |
| `FromVirtualSyncer.SyncErrorPolicy` | generic-crd-plugin/pkg/syncer/from_virtual_syncer.go:125-156 | For the forward and the reverse run alike, an invalid-class failure gives a retry with no error. Any other failure gives a hard error prefixed with the side and identity of the object. An in-scope pass never returns an invalid-class error. |
| `FromVirtualSyncer.SyncRequeueOnlyAfterInvalidWrite` | generic-crd-plugin/pkg/syncer/from_virtual_syncer.go:126-153 | A retry is requested only when the last step of the pass was a body or status patch that the storage refused with an invalid-class error. |
| `FromVirtualSyncer.RequeuedRunEndsInRefusedWrite` | generic-crd-plugin/pkg/syncer/from_virtual_syncer.go:230-287 | An executor run that failed with an invalid-class error ended on a body or status patch refused with exactly that error. |
| `FromVirtualSyncer.SyncReverseFailureIsHard` | generic-crd-plugin/pkg/syncer/from_virtual_syncer.go:140-156 | The reverse rules read the physical object handed to the pass. When they fail, for instance on a name the cache cannot resolve, the pass writes nothing and returns the wrapped hard error without a retry. |
| `FromVirtualSyncer.SyncForwardFailureIsHard` | generic-crd-plugin/pkg/syncer/from_virtual_syncer.go:117-133 | The forward rules read the virtual object. When they fail on an in-scope object, the pass writes nothing and issues no call. It returns the error wrapped for the physical object, without a retry. |
| `FromVirtualSyncer.SelectedObjectIsDeleted` | generic-crd-plugin/pkg/syncer/from_virtual_syncer.go:96-105 | Whatever the clients reply, an object whose labels the selector matches has its physical copy deleted, and that Delete is the pass's only call. |
| `Documents.Labels` | generic-crd-plugin/pkg/syncer/from_virtual_syncer.go:302 | Each label read is a string entry of metadata.labels. When every entry there is a string, all of them are read. |

## Left out

- Cluster I/O (`Create`, `Patch`, `Status().Patch`, `Delete`): each client is an opaque oracle from a call to a reply, and every call is recorded in the trace. Cancellation through the context is not modelled.
- The rule interpreter (`patches.ApplyPatches`) is an uninterpreted function that may fail. Anything that depends on its behaviour is not stated: idempotence over two passes, and which names it translates. Only the single-run form is proved (`IdentityMutationIsNoop`).
- The JSON diff and its serialisation (`jsondiff.Compare`, `json.Marshal`): a patch is represented by the two images it is computed from. Their error branches (lines 221-228 and 264-279) are assumed never to be taken, and no minimality of the patch is claimed.
- The unstructured converter is taken as the identity on documents, so its error branches (lines 173-175, 201-203, 240-262) are not modelled. The nested-field helpers with the single key `status` cannot fail.
- The converter at line 201 does not copy: it returns the object's own map, so removing the status from `after` at line 215 removes it from the object as well. The model does not share maps. It reproduces the effect explicitly: the body patch sends the status-stripped image, and when no body patch is sent the status step starts from that image.
- `reflect.DeepEqual` is Dafny's structural equality on `Value`. Go's distinctions between a nil and an empty map and between numeric types are not modelled.
- `translate.PhysicalName`, the name cache and `TranslateMetadata` are opaque function parameters. The cache lookup yields only the name part of its result.
- Label selection semantics and parsing the selector when the syncer is built (lines 29-54) are not modelled. `Matches` is an opaque boolean function of the labels.
- Logging and the warning event on a failed create (line 88) are not modelled.
- `Executor.ExecuteObjectPatch`: the mutation error names the object as it was before the mutation, whereas the code formats the possibly half-mutated object.
- `Executor.ExecuteObjectPatch`: after the status step the object is rewritten in place (line 256). The model does not return that object, because no caller reads it.
- `FromVirtualSyncer.Sync`: the reverse pass mutates the caller's virtual object in place; the model does not return that mutation. For the same reason, the reverse hard-error message names the virtual object as it was passed in. The code (line 155) formats it after the reverse patches and any patch reply have changed it.
- `RequeueAfter` in the reconcile result is never set by this code and is not modelled.

=== FILE: documents.dfy ===
/**
 * Resources as untyped structured documents: the unstructured map form
 * that the syncer converts every object into before comparing it.
 */
module Documents {

  /** A JSON-like value as stored in an unstructured object. */
  datatype Value =
    | Null
    | Bool(b: bool)
    | Int(i: int)
    | Str(s: string)
    | List(items: seq<Value>)
    | Object(fields: map<string, Value>)

  /** A whole resource: top-level field names to values. */
  type Document = map<string, Value>

  /** The top-level field that holds the status sub-document. */
  const StatusKey: string := "status"

  /** The value stored under `key`, or `Null` when there is none. */
  function Field(m: map<string, Value>, key: string): Value
  {
    if key in m then m[key] else Null
  }

  /**
   * The status of a document as a nested-field copy sees it: an absent
   * status reads as the null value, exactly like a present `null` one.
   */
  function StatusValue(d: Document): Value
  {
    Field(d, StatusKey)
  }

  /** The string under `key`, or the empty string when it is missing or not a string. */
  function StringField(m: map<string, Value>, key: string): string
  {
    match Field(m, key)
    case Str(s) => s
    case _ => ""
  }

  /** The `metadata` section, or an empty one when it is missing or malformed. */
  function Metadata(d: Document): map<string, Value>
  {
    match Field(d, "metadata")
    case Object(m) => m
    case _ => map[]
  }

  function Kind(d: Document): string
  {
    StringField(d, "kind")
  }

  function Name(d: Document): string
  {
    StringField(Metadata(d), "name")
  }

  function Namespace(d: Document): string
  {
    StringField(Metadata(d), "namespace")
  }

  /**
   * The object's labels. A label map holding any non-string value is
   * read as no labels at all, as the unstructured accessor does.
   */
  function Labels(d: Document): (labels: map<string, string>)
    ensures forall k :: k in labels ==>
              "labels" in Metadata(d) && Metadata(d)["labels"].Object? &&
              k in Metadata(d)["labels"].fields && Metadata(d)["labels"].fields[k] == Str(labels[k])
    ensures Field(Metadata(d), "labels").Object?
            && (forall k :: k in Field(Metadata(d), "labels").fields ==> Field(Metadata(d), "labels").fields[k].Str?)
            ==> labels.Keys == Field(Metadata(d), "labels").fields.Keys
  {
    match Field(Metadata(d), "labels")
    case Object(raw) =>
      if forall k :: k in raw ==> raw[k].Str? then map k | k in raw :: raw[k].s else map[]
    case _ => map[]
  }

  /** "kind namespace/name", the identity the syncer puts in its error messages. */
  function Describe(kind: string, d: Document): string
  {
    kind + " " + Namespace(d) + "/" + Name(d)
  }
}

=== FILE: executor.dfy ===
/**
 * The mutate -> compare -> write executor behind every patch pass: it
 * snapshots an object, runs a mutation on it, and writes the body and the
 * status sub-document back as two separate patches, each only when it changed.
 */
module Executor {
  import opened Wrappers
  import opened Documents
  import opened Storage

  /** Fixed inside the executor: status is always treated as a subresource. */
  const StatusIsSubresource: bool := true

  /** What a pass wrote, as the controller framework reports it. */
  datatype OperationResult =
    | ResultNone
    | ResultUpdated
    | ResultUpdatedStatus
    | ResultUpdatedStatusOnly
  {
    /** The body of the object was written. */
    predicate WroteBody()
    {
      ResultUpdated? || ResultUpdatedStatus?
    }

    /** The status of the object was written. */
    predicate WroteStatus()
    {
      ResultUpdatedStatus? || ResultUpdatedStatusOnly?
    }
  }

  /** The result kind for a run whose body and status writes both went through as given. */
  function Classify(updated: bool, statusUpdated: bool): (r: OperationResult)
    ensures r.WroteBody() == updated && r.WroteStatus() == statusUpdated
    ensures r == ResultNone <==> !updated && !statusUpdated
  {
    if updated && statusUpdated then ResultUpdatedStatus
    else if updated && !statusUpdated then ResultUpdated
    else if !updated && statusUpdated then ResultUpdatedStatusOnly
    else ResultNone
  }

  /** Every result kind is the classification of the writes it reports. */
  lemma ClassifyRoundTrip(r: OperationResult)
    ensures Classify(r.WroteBody(), r.WroteStatus()) == r
  {
  }

  /** The object with its status removed, the image used for the body comparison. */
  function BodyOf(d: Document): (body: Document)
    ensures StatusKey !in body
    ensures forall k :: k in d && k != StatusKey ==> k in body && body[k] == d[k]
    ensures forall k :: k in body ==> k in d
  {
    if StatusKey in d && StatusIsSubresource then d - {StatusKey} else d
  }

  /** The body comparison: do the status-stripped images differ? */
  predicate BodyChanged(before: Document, after: Document)
  {
    BodyOf(before) != BodyOf(after)
  }

  /** The status comparison: is there a status on either side, and do the two differ? */
  predicate StatusChanged(before: Document, after: Document)
  {
    StatusIsSubresource && (StatusKey in before || StatusKey in after)
    && StatusValue(before) != StatusValue(after)
  }

  /** The outcome of one executor run: the result kind, an error if any, and what it did. */
  datatype PatchRun = PatchRun(result: OperationResult, err: Option<Error>, trace: seq<Event>)

  /** The error for a failed mutation, naming the object. */
  function MutationError(obj: Document, e: Error): (err: Error)
    ensures !IsInvalid(err)
    ensures "failed to apply declared patches to " + Describe(Kind(obj), obj) + ": " <= err.message
    ensures err.message[|"failed to apply declared patches to " + Describe(Kind(obj), obj) + ": "|..] == e.message
  {
    Wrap("failed to apply declared patches to " + Describe(Kind(obj), obj) + ": ", e)
  }

  /**
   * Runs `mutate` on `obj` and persists the difference through `c`: one body
   * patch when the status-stripped images differ, then one status patch when
   * the statuses differ.
   */
  function ExecuteObjectPatch(c: Client, obj: Document, mutate: Document -> Result<Document, Error>)
    : (run: PatchRun)
    ensures 1 <= |run.trace| <= 3 && run.trace[0] == Mutated(c.side)
    ensures forall i :: 0 <= i < |run.trace| ==> run.trace[i].side == c.side
    ensures forall i :: 1 <= i < |run.trace| ==> run.trace[i].Issued?
    ensures !run.result.WroteStatus() || run.err.None?
  {
    var before := BodyOf(obj);
    match mutate(obj)
    case Failure(e) =>
      PatchRun(ResultNone, Some(MutationError(obj, e)), [Mutated(c.side)])
    case Success(mutated) =>
      // The converter hands back the object's own map, so stripping the
      // status from `after` strips it from the object too: the object the
      // body patch sends, and the one the status step starts from when no
      // body patch is sent, carry no status.
      var after := BodyOf(mutated);
      if before != after then
        var call := Patch(after, before, after);
        match c.respond(call)
        case Refused(e) =>
          PatchRun(ResultNone, Some(e), [Mutated(c.side), Issued(c.side, call)])
        case Stored(image) =>
          StatusStep(c, obj, mutated, image, true, [Mutated(c.side), Issued(c.side, call)])
      else
        StatusStep(c, obj, mutated, after, false, [Mutated(c.side)])
  }

  /**
   * The status half of a run. `current` is the object as it stands after the
   * body step (the server's image when a body patch went through); the status
   * patch re-attaches the mutated status to it and is computed against the
   * full pre-mutation image.
   */
  function StatusStep(c: Client, beforeWithStatus: Document, mutated: Document, current: Document,
                      updated: bool, trace: seq<Event>): (run: PatchRun)
    ensures |run.trace| <= |trace| + 1 && trace <= run.trace
    ensures forall i :: |trace| <= i < |run.trace| ==>
              run.trace[i].Issued? && run.trace[i].side == c.side && run.trace[i].call.PatchStatus?
    ensures run.err.Some? ==> run.result == (if updated then ResultUpdated else ResultNone)
    ensures run.err.None? ==> run.result.WroteBody() == updated
  {
    if StatusChanged(beforeWithStatus, mutated) then
      var call := StatusCall(current, beforeWithStatus, mutated);
      match c.respond(call)
      case Refused(e) =>
        PatchRun(if updated then ResultUpdated else ResultNone, Some(e), trace + [Issued(c.side, call)])
      case Stored(_) =>
        PatchRun(Classify(updated, true), None, trace + [Issued(c.side, call)])
    else
      PatchRun(Classify(updated, false), None, trace)
  }

  // ---------------------------------------------------------------------------
  // Properties of a run
  // ---------------------------------------------------------------------------

  /** The run issued a body patch. */
  predicate HasBodyPatch(calls: seq<Call>)
  {
    exists i :: 0 <= i < |calls| && calls[i].Patch?
  }

  /** The run issued a status patch. */
  predicate HasStatusPatch(calls: seq<Call>)
  {
    exists i :: 0 <= i < |calls| && calls[i].PatchStatus?
  }

  /** The status write for a run: the mutated status re-attached to `current`, diffed against the full before-image. */
  function StatusCall(current: Document, beforeWithStatus: Document, mutated: Document): (k: Call)
    ensures k.PatchStatus? && k.from == beforeWithStatus && k.obj == k.to
    ensures StatusKey in k.to && k.to[StatusKey] == StatusValue(mutated)
    ensures k.to.Keys == current.Keys + {StatusKey}
    ensures forall key :: key in current && key != StatusKey ==> k.to[key] == current[key]
  {
    var objectAfterPatch := current[StatusKey := StatusValue(mutated)];
    PatchStatus(objectAfterPatch, beforeWithStatus, objectAfterPatch)
  }

  lemma CallsOfOne(e: Event, side: Side)
    ensures CallsOn([e], side) == (if e.Issued? && e.side == side then [e.call] else [])
  {
  }

  lemma StatusStepCalls(c: Client, beforeWithStatus: Document, mutated: Document, current: Document,
                        updated: bool, trace: seq<Event>)
    ensures CallsOn(StatusStep(c, beforeWithStatus, mutated, current, updated, trace).trace, c.side)
         == CallsOn(trace, c.side)
            + (if StatusChanged(beforeWithStatus, mutated)
               then [StatusCall(current, beforeWithStatus, mutated)] else [])
  {
    if StatusChanged(beforeWithStatus, mutated) {
      var e := Issued(c.side, StatusCall(current, beforeWithStatus, mutated));
      CallsOnAppend(trace, [e], c.side);
      CallsOfOne(e, c.side);
    }
  }

  /** The writes of a run whose mutation changed the body. */
  lemma CallsWhenBodyChanged(c: Client, obj: Document, mutate: Document -> Result<Document, Error>)
    requires mutate(obj).Success? && BodyChanged(obj, mutate(obj).value)
    ensures var m := mutate(obj).value;
            var body := Patch(BodyOf(m), BodyOf(obj), BodyOf(m));
            var calls := CallsOn(ExecuteObjectPatch(c, obj, mutate).trace, c.side);
            calls == [body] + (if c.respond(body).Stored? && StatusChanged(obj, m)
                               then [StatusCall(c.respond(body).image, obj, m)] else [])
  {
    var m := mutate(obj).value;
    var body := Patch(BodyOf(m), BodyOf(obj), BodyOf(m));
    var start := [Mutated(c.side), Issued(c.side, body)];
    CallsOfOne(Mutated(c.side), c.side);
    CallsOfOne(Issued(c.side, body), c.side);
    CallsOnAppend([Mutated(c.side)], [Issued(c.side, body)], c.side);
    assert [Mutated(c.side)] + [Issued(c.side, body)] == start;
    if c.respond(body).Stored? {
      StatusStepCalls(c, obj, m, c.respond(body).image, true, start);
    }
  }

  /** The writes of a run whose mutation left the body as it was. */
  lemma CallsWhenBodyKept(c: Client, obj: Document, mutate: Document -> Result<Document, Error>)
    requires mutate(obj).Success? && !BodyChanged(obj, mutate(obj).value)
    ensures var m := mutate(obj).value;
            var calls := CallsOn(ExecuteObjectPatch(c, obj, mutate).trace, c.side);
            calls == (if StatusChanged(obj, m) then [StatusCall(BodyOf(m), obj, m)] else [])
  {
    var m := mutate(obj).value;
    CallsOfOne(Mutated(c.side), c.side);
    StatusStepCalls(c, obj, m, BodyOf(m), false, [Mutated(c.side)]);
  }

  /**
   * The shape of the writes of any run: a failed mutation writes nothing;
   * otherwise at most two writes, each a body or a status patch, the body
   * patch only ever first and the status patch only ever last, and every
   * write but the last one accepted by the client.
   */
  lemma RunCalls(c: Client, obj: Document, mutate: Document -> Result<Document, Error>)
    ensures var calls := CallsOn(ExecuteObjectPatch(c, obj, mutate).trace, c.side);
            && (mutate(obj).Failure? ==> calls == [])
            && |calls| <= 2
            && (forall i :: 0 <= i < |calls| ==> calls[i].Patch? || calls[i].PatchStatus?)
            && (forall i :: 0 <= i < |calls| && calls[i].Patch? ==> i == 0)
            && (forall i :: 0 <= i < |calls| && calls[i].PatchStatus? ==> i == |calls| - 1)
            && (forall i :: 0 <= i < |calls| - 1 ==> c.respond(calls[i]).Stored?)
  {
    CallsOfOne(Mutated(c.side), c.side);
    if mutate(obj).Success? {
      if BodyChanged(obj, mutate(obj).value) {
        CallsWhenBodyChanged(c, obj, mutate);
      } else {
        CallsWhenBodyKept(c, obj, mutate);
      }
    }
  }

  /**
   * The status patch is built on the object as it stands after the body
   * step: the client's reply to an accepted body patch, or else the mutated
   * object; either way with the mutated status attached.
   */
  lemma StatusTargetFromBodyReply(c: Client, obj: Document, mutate: Document -> Result<Document, Error>)
    requires mutate(obj).Success?
    ensures var m := mutate(obj).value;
            var body := Patch(BodyOf(m), BodyOf(obj), BodyOf(m));
            var calls := CallsOn(ExecuteObjectPatch(c, obj, mutate).trace, c.side);
            forall k :: k in calls && k.PatchStatus? ==>
              if BodyChanged(obj, m) then
                c.respond(body).Stored? && k.to == c.respond(body).image[StatusKey := StatusValue(m)]
              else
                k.to == m[StatusKey := StatusValue(m)]
  {
  }

  /** A failed mutation writes nothing and reports no change, with a hard error naming the object. */
  lemma MutateFailureWritesNothing(c: Client, obj: Document, mutate: Document -> Result<Document, Error>)
    requires mutate(obj).Failure?
    ensures var run := ExecuteObjectPatch(c, obj, mutate);
            && run.trace == [Mutated(c.side)]
            && CallsOn(run.trace, c.side) == []
            && run.result == ResultNone
            && run.err == Some(MutationError(obj, mutate(obj).error))
            && !IsInvalid(run.err.value)
  {
  }

  /** A body patch is issued exactly when the status-stripped images differ. */
  lemma BodyPatchIffBodyChanged(c: Client, obj: Document, mutate: Document -> Result<Document, Error>)
    requires mutate(obj).Success?
    ensures var calls := CallsOn(ExecuteObjectPatch(c, obj, mutate).trace, c.side);
            HasBodyPatch(calls) <==> BodyChanged(obj, mutate(obj).value)
  {
  }

  /**
   * Once the body step has not failed, a status patch is issued exactly when
   * a status is present on either side and the two statuses differ.
   */
  lemma StatusPatchIffStatusChanged(c: Client, obj: Document, mutate: Document -> Result<Document, Error>)
    requires mutate(obj).Success?
    requires var m := mutate(obj).value;
             BodyChanged(obj, m) ==> c.respond(Patch(BodyOf(m), BodyOf(obj), BodyOf(m))).Stored?
    ensures var calls := CallsOn(ExecuteObjectPatch(c, obj, mutate).trace, c.side);
            HasStatusPatch(calls) <==> StatusChanged(obj, mutate(obj).value)
  {
  }

  /**
   * The status patch runs from the full pre-mutation image, status included,
   * to an image carrying the mutated status.
   */
  lemma StatusPatchAgainstFullBeforeImage(c: Client, obj: Document, mutate: Document -> Result<Document, Error>)
    requires mutate(obj).Success?
    ensures var calls := CallsOn(ExecuteObjectPatch(c, obj, mutate).trace, c.side);
            forall k :: k in calls && k.PatchStatus? ==>
              k.from == obj && StatusKey in k.to && k.to[StatusKey] == StatusValue(mutate(obj).value)
              && k.obj == k.to
  {
    if BodyChanged(obj, mutate(obj).value) {
      CallsWhenBodyChanged(c, obj, mutate);
    } else {
      CallsWhenBodyKept(c, obj, mutate);
    }
  }

  /**
   * The result kind of a run: on success it classifies the writes issued; on
   * failure it is `ResultUpdated` exactly when the body patch went through and
   * the status step then failed, and `ResultNone` otherwise.
   */
  lemma ResultMapping(c: Client, obj: Document, mutate: Document -> Result<Document, Error>)
    ensures var run := ExecuteObjectPatch(c, obj, mutate);
            var calls := CallsOn(run.trace, c.side);
            && (run.err.None? ==> run.result == Classify(HasBodyPatch(calls), HasStatusPatch(calls)))
            && (run.err.Some? ==>
                  run.result == (if |calls| == 2 then ResultUpdated else ResultNone))
            && (run.err.Some? && |calls| == 2 ==> calls[0].Patch? && calls[1].PatchStatus?)
  {
  }

  /** A run that reports no change and no error wrote nothing. */
  lemma UnchangedRunWritesNothing(c: Client, obj: Document, mutate: Document -> Result<Document, Error>)
    requires ExecuteObjectPatch(c, obj, mutate).err.None?
    requires ExecuteObjectPatch(c, obj, mutate).result == ResultNone
    ensures ExecuteObjectPatch(c, obj, mutate).trace == [Mutated(c.side)]
  {
  }

  /** A mutation that leaves the object as it was is a no-op run. */
  lemma IdentityMutationIsNoop(c: Client, obj: Document, mutate: Document -> Result<Document, Error>)
    requires mutate(obj) == Success(obj)
    ensures ExecuteObjectPatch(c, obj, mutate) == PatchRun(ResultNone, None, [Mutated(c.side)])
  {
  }

  /**
   * A change confined to the status yields a single status write and the
   * `ResultUpdatedStatusOnly` kind.
   */
  lemma StatusOnlyChange(c: Client, obj: Document, mutate: Document -> Result<Document, Error>)
    requires mutate(obj).Success?
    requires BodyOf(mutate(obj).value) == BodyOf(obj)
    requires StatusValue(mutate(obj).value) != StatusValue(obj)
    requires var m := mutate(obj).value;
             c.respond(StatusCall(m, obj, m)).Stored?
    ensures var run := ExecuteObjectPatch(c, obj, mutate);
            var m := mutate(obj).value;
            && run.result == ResultUpdatedStatusOnly
            && run.err.None?
            && CallsOn(run.trace, c.side) == [StatusCall(m, obj, m)]
  {
    var m := mutate(obj).value;
    assert BodyOf(m)[StatusKey := StatusValue(m)] == m[StatusKey := StatusValue(m)];
    assert StatusCall(BodyOf(m), obj, m) == StatusCall(m, obj, m);
    CallsOfOne(Mutated(c.side), c.side);
    StatusStepCalls(c, obj, m, BodyOf(m), false, [Mutated(c.side)]);
  }

  /** The body comparison never looks at the status, on either side. */
  lemma BodyDecisionIgnoresStatus(before: Document, after: Document, s1: Value, s2: Value)
    ensures BodyChanged(before, after) == BodyChanged(before[StatusKey := s1], after[StatusKey := s2])
  {
    assert BodyOf(before[StatusKey := s1]) == BodyOf(before - {StatusKey});
    assert BodyOf(after[StatusKey := s2]) == BodyOf(after - {StatusKey});
    assert BodyOf(before) == BodyOf(before - {StatusKey});
    assert BodyOf(after) == BodyOf(after - {StatusKey});
  }

  /**
   * The presence test in front of the status comparison decides nothing: an
   * absent status reads as null, so the statuses differ only if one is present.
   */
  lemma StatusPresenceTestRedundant(before: Document, after: Document)
    ensures StatusChanged(before, after) <==> StatusValue(before) != StatusValue(after)
  {
  }
}

=== FILE: from_virtual_syncer.dfy ===
/**
 * The virtual -> physical syncer for one custom resource kind: it creates the
 * physical copy of a virtual object, deletes it when the virtual object leaves
 * the syncer's scope, and otherwise patches the physical copy forward or,
 * when that changed nothing, the virtual object backward.
 */
module FromVirtualSyncer {
  import opened Wrappers
  import opened Documents
  import opened Storage
  import opened NameResolution
  import opened Executor

  /** A label selector; what `matches` means is the label library's business. */
  datatype Selector = Selector(matches: map<string, string> -> bool)

  /** One declared patch rule, uninterpreted here. */
  datatype PatchRule = PatchRule(definition: Value)

  /**
   * The rule interpreter: applies `rules` to a target document, reading a
   * source document and translating names with a resolver. It either
   * yields the patched target or fails.
   */
  datatype PatchInterpreter = PatchInterpreter(
    apply: (Document, Document, seq<PatchRule>, NameResolver) -> Result<Document, Error>)

  /**
   * The syncer's configuration and collaborators: the kind and the two rule
   * lists, the optional selector, the name cache, the SDK's metadata
   * translation and physical-name function, and the rule interpreter.
   * `statusIsSubresource` is set at construction and never read.
   */
  datatype Controller = Controller(
    kind: string,
    patches: seq<PatchRule>,
    reversePatches: seq<PatchRule>,
    selector: Option<Selector>,
    namecache: NameCache,
    statusIsSubresource: bool,
    translateMetadata: Document -> Document,
    physicalName: (string, string) -> string,
    interpreter: PatchInterpreter)

  /** The two clients of a pass, one per cluster. */
  datatype SyncContext = SyncContext(physicalClient: Client, virtualClient: Client)
  {
    predicate Valid()
    {
      physicalClient.side == Physical && virtualClient.side == Virtual
    }
  }

  /** What a pass asks of the control loop: only `Requeue` is ever set here. */
  datatype ReconcileResult = ReconcileResult(requeue: bool)

  const EmptyResult := ReconcileResult(false)
  const RequeueResult := ReconcileResult(true)

  /** The outcome of a pass: the reconcile result, an error if any, and what it did. */
  datatype SyncOutcome = SyncOutcome(result: ReconcileResult, err: Option<Error>, trace: seq<Event>)

  // ---------------------------------------------------------------------------
  // Scope
  // ---------------------------------------------------------------------------

  /**
   * The scope test as the syncer computes it: no selector admits everything;
   * otherwise an object is in scope when the selector does NOT match its labels.
   */
  function ObjectMatches(selector: Option<Selector>, obj: Document): (inScope: bool)
    ensures selector.None? ==> inScope
    ensures selector.Some? ==> (inScope <==> !selector.value.matches(Labels(obj)))
  {
    selector.None? || !selector.value.matches(Labels(obj))
  }

  /** The scope test as the comment at the call site describes it: the selector matches. */
  function SelectorAdmits(selector: Option<Selector>, obj: Document): (admitted: bool)
    ensures selector.None? ==> admitted
    ensures selector.Some? ==> (admitted <==> selector.value.matches(Labels(obj)))
  {
    selector.None? || selector.value.matches(Labels(obj))
  }

  /** With a selector present the computed scope is the opposite of the documented one. */
  lemma ScopeIsNegatedSelector(selector: Option<Selector>, obj: Document)
    ensures selector.Some? ==> ObjectMatches(selector, obj) == !SelectorAdmits(selector, obj)
    ensures selector.None? ==> ObjectMatches(selector, obj) && SelectorAdmits(selector, obj)
  {
  }

  // ---------------------------------------------------------------------------
  // Mutations handed to the executor
  // ---------------------------------------------------------------------------

  /** One call of the interpreter, its error reformatted (which drops the error's class). */
  function ApplyPatches(f: Controller, target: Document, source: Document, rules: seq<PatchRule>,
                        resolver: NameResolver): (r: Result<Document, Error>)
    ensures r.Failure? ==> !IsInvalid(r.error)
    ensures r.Failure? <==> f.interpreter.apply(target, source, rules, resolver).Failure?
    ensures r.Success? ==> r.value == f.interpreter.apply(target, source, rules, resolver).value
  {
    match f.interpreter.apply(target, source, rules, resolver)
    case Failure(e) => Failure(Wrap("error applying patches: ", e))
    case Success(d) => Success(d)
  }

  /** The resolver used for forward rules: physical names in the virtual object's namespace. */
  function ForwardResolver(f: Controller, vObj: Document): NameResolver
  {
    VirtualToHost(Namespace(vObj), f.physicalName)
  }

  /** Forward rules applied to a copy of the physical object, reading the virtual one. */
  function ForwardMutation(f: Controller, vObj: Document): (mutate: Document -> Result<Document, Error>)
    ensures forall target :: mutate(target).Failure? <==>
              f.interpreter.apply(target, vObj, f.patches, VirtualToHost(Namespace(vObj), f.physicalName)).Failure?
    ensures forall target :: mutate(target).Success? ==>
              mutate(target).value
              == f.interpreter.apply(target, vObj, f.patches, VirtualToHost(Namespace(vObj), f.physicalName)).value
    ensures forall target :: mutate(target).Failure? ==> !IsInvalid(mutate(target).error)
  {
    target => ApplyPatches(f, target, vObj, f.patches, ForwardResolver(f, vObj))
  }

  /** Reverse rules applied to the virtual object, reading the original physical one. */
  function ReverseMutation(f: Controller, pObj: Document): (mutate: Document -> Result<Document, Error>)
    ensures forall target :: mutate(target).Failure? <==>
              f.interpreter.apply(target, pObj, f.reversePatches, HostToVirtual(f.namecache)).Failure?
    ensures forall target :: mutate(target).Success? ==>
              mutate(target).value
              == f.interpreter.apply(target, pObj, f.reversePatches, HostToVirtual(f.namecache)).value
    ensures forall target :: mutate(target).Failure? ==> !IsInvalid(mutate(target).error)
  {
    target => ApplyPatches(f, target, pObj, f.reversePatches, HostToVirtual(f.namecache))
  }

  // ---------------------------------------------------------------------------
  // SyncDown: create the physical object
  // ---------------------------------------------------------------------------

  function SyncDown(f: Controller, ctx: SyncContext, vObj: Document): (out: SyncOutcome)
    ensures out.result == EmptyResult
    ensures |out.trace| <= 1
    ensures forall i :: 0 <= i < |out.trace| ==>
              out.trace[i].Issued? && out.trace[i].side == ctx.physicalClient.side
              && out.trace[i].call.Create?
    ensures !ObjectMatches(f.selector, vObj) ==> out.err.None? && out.trace == []
  {
    if !ObjectMatches(f.selector, vObj) then
      SyncOutcome(EmptyResult, None, [])
    else
      var newObj := f.translateMetadata(vObj);
      match ApplyPatches(f, newObj, vObj, f.patches, ForwardResolver(f, vObj))
      case Failure(e) =>
        SyncOutcome(EmptyResult, Some(e), [])
      case Success(created) =>
        var call := Create(created);
        match ctx.physicalClient.respond(call)
        case Refused(e) => SyncOutcome(EmptyResult, Some(e), [Issued(ctx.physicalClient.side, call)])
        case Stored(_) => SyncOutcome(EmptyResult, None, [Issued(ctx.physicalClient.side, call)])
  }

  /** A failed rule application creates nothing and reports a hard error. */
  lemma SyncDownPatchFailureCreatesNothing(f: Controller, ctx: SyncContext, vObj: Document)
    requires ObjectMatches(f.selector, vObj)
    requires f.interpreter.apply(f.translateMetadata(vObj), vObj, f.patches, ForwardResolver(f, vObj)).Failure?
    ensures var out := SyncDown(f, ctx, vObj);
            var e := f.interpreter.apply(f.translateMetadata(vObj), vObj, f.patches, ForwardResolver(f, vObj)).error;
            out.trace == [] && out.err == Some(Wrap("error applying patches: ", e))
  {
  }

  /**
   * Once the rules apply, exactly one create of the patched object is issued,
   * and the create's error, if any, is returned unchanged.
   */
  lemma SyncDownCreateOutcome(f: Controller, ctx: SyncContext, vObj: Document)
    requires ObjectMatches(f.selector, vObj)
    requires f.interpreter.apply(f.translateMetadata(vObj), vObj, f.patches, ForwardResolver(f, vObj)).Success?
    ensures var created := f.interpreter.apply(f.translateMetadata(vObj), vObj, f.patches,
                                               ForwardResolver(f, vObj)).value;
            var out := SyncDown(f, ctx, vObj);
            && CallsOn(out.trace, ctx.physicalClient.side) == [Create(created)]
            && out.err == (match ctx.physicalClient.respond(Create(created))
                           case Refused(e) => Some(e)
                           case Stored(_) => None)
  {
  }

  /** An object the selector matches is never created (a consequence of the negated test). */
  lemma SelectedObjectIsNotCreated(f: Controller, ctx: SyncContext, vObj: Document)
    requires f.selector.Some? && f.selector.value.matches(Labels(vObj))
    ensures SyncDown(f, ctx, vObj) == SyncOutcome(EmptyResult, None, [])
  {
  }

  // ---------------------------------------------------------------------------
  // Sync: one reconciliation pass over an existing pair
  // ---------------------------------------------------------------------------

  /** How a pass reports an executor failure: invalid writes become a retry, the rest hard errors. */
  function PassFailure(e: Error, prefix: string, trace: seq<Event>): (out: SyncOutcome)
    ensures out.trace == trace
    ensures out.result.requeue <==> IsInvalid(e)
    ensures out.err.None? <==> IsInvalid(e)
    ensures out.err.Some? ==> !IsInvalid(out.err.value) && prefix <= out.err.value.message
  {
    if IsInvalid(e) then SyncOutcome(RequeueResult, None, trace)
    else SyncOutcome(EmptyResult, Some(Wrap(prefix, e)), trace)
  }

  /** The forward executor run of a pass. */
  function ForwardRun(f: Controller, ctx: SyncContext, pObj: Document, vObj: Document): PatchRun
  {
    ExecuteObjectPatch(ctx.physicalClient, pObj, ForwardMutation(f, vObj))
  }

  /** The reverse executor run of a pass. */
  function ReverseRun(f: Controller, ctx: SyncContext, pObj: Document, vObj: Document): PatchRun
  {
    ExecuteObjectPatch(ctx.virtualClient, vObj, ReverseMutation(f, pObj))
  }

  function Sync(f: Controller, ctx: SyncContext, pObj: Document, vObj: Document): (out: SyncOutcome)
    ensures out.result.requeue ==> out.err.None?
    ensures 1 <= |out.trace| && (out.trace[0] == Mutated(ctx.physicalClient.side)
                                 || out.trace == [Issued(ctx.physicalClient.side, Delete(pObj))])
  {
    if !ObjectMatches(f.selector, vObj) then
      var call := Delete(pObj);
      match ctx.physicalClient.respond(call)
      case Refused(e) => SyncOutcome(EmptyResult, Some(e), [Issued(ctx.physicalClient.side, call)])
      case Stored(_) => SyncOutcome(EmptyResult, None, [Issued(ctx.physicalClient.side, call)])
    else
      var forward := ForwardRun(f, ctx, pObj, vObj);
      if forward.err.Some? then
        PassFailure(forward.err.value, "failed to patch physical " + Describe(f.kind, pObj) + ": ",
                    forward.trace)
      else if forward.result == ResultUpdated || forward.result == ResultUpdatedStatus
              || forward.result == ResultUpdatedStatusOnly then
        SyncOutcome(EmptyResult, None, forward.trace)
      else
        var reverse := ReverseRun(f, ctx, pObj, vObj);
        var trace := forward.trace + reverse.trace;
        if reverse.err.Some? then
          PassFailure(reverse.err.value, "failed to patch virtual " + Describe(f.kind, vObj) + ": ", trace)
        else
          SyncOutcome(EmptyResult, None, trace)
  }

  /** Out of scope: exactly one delete of the physical object, nothing else; its error is returned as is. */
  lemma SyncOutOfScopeDeletes(f: Controller, ctx: SyncContext, pObj: Document, vObj: Document)
    requires ctx.Valid()
    requires !ObjectMatches(f.selector, vObj)
    ensures var out := Sync(f, ctx, pObj, vObj);
            && CallsOn(out.trace, Physical) == [Delete(pObj)]
            && CallsOn(out.trace, Virtual) == []
            && Mutated(Physical) !in out.trace && Mutated(Virtual) !in out.trace
            && out.result == EmptyResult
            && out.err == (match ctx.physicalClient.respond(Delete(pObj))
                           case Refused(e) => Some(e)
                           case Stored(_) => None)
  {
  }

  /**
   * A forward run that changed the physical object ends the pass: the reverse
   * rules are not run, and the pass reports an empty result and no error.
   */
  lemma SyncForwardChangeEndsPass(f: Controller, ctx: SyncContext, pObj: Document, vObj: Document)
    requires ctx.Valid()
    requires ObjectMatches(f.selector, vObj)
    requires ForwardRun(f, ctx, pObj, vObj).err.None?
    requires ForwardRun(f, ctx, pObj, vObj).result != ResultNone
    ensures var out := Sync(f, ctx, pObj, vObj);
            && out == SyncOutcome(EmptyResult, None, ForwardRun(f, ctx, pObj, vObj).trace)
            && Mutated(Virtual) !in out.trace
            && CallsOn(out.trace, Virtual) == []
  {
    NoCallsOn(ForwardRun(f, ctx, pObj, vObj).trace, Virtual);
  }

  /**
   * Forward and reverse patching are exclusive within a pass: a pass that
   * issued any write to the physical cluster never mutates or writes the
   * virtual object, and a pass that mutated the virtual object issued no
   * physical write at all.
   */
  lemma SyncPassesAreExclusive(f: Controller, ctx: SyncContext, pObj: Document, vObj: Document)
    requires ctx.Valid()
    ensures var out := Sync(f, ctx, pObj, vObj);
            CallsOn(out.trace, Physical) != [] ==>
              Mutated(Virtual) !in out.trace && CallsOn(out.trace, Virtual) == []
    ensures var out := Sync(f, ctx, pObj, vObj);
            Mutated(Virtual) in out.trace ==>
              CallsOn(out.trace, Physical) == [] && out.trace[0] == Mutated(Physical)
  {
    var out := Sync(f, ctx, pObj, vObj);
    if !ObjectMatches(f.selector, vObj) {
      SyncOutOfScopeDeletes(f, ctx, pObj, vObj);
    } else {
      var forward := ForwardRun(f, ctx, pObj, vObj);
      assert forall i :: 0 <= i < |forward.trace| ==> forward.trace[i].side == Physical;
      if forward.err.Some? || forward.result != ResultNone {
        assert out.trace == forward.trace;
        NoCallsOn(out.trace, Virtual);
      } else {
        UnchangedRunWritesNothing(ctx.physicalClient, pObj, ForwardMutation(f, vObj));
        var reverse := ReverseRun(f, ctx, pObj, vObj);
        assert out.trace == [Mutated(Physical)] + reverse.trace;
        assert forall i :: 0 <= i < |reverse.trace| ==> reverse.trace[i].side == Virtual;
        NoCallsOn(out.trace, Physical);
      }
    }
  }

  /**
   * The reverse rules run exactly when the object is in scope and the forward
   * run ended with no change and no error: a failed forward run ends the pass
   * just as a forward change does.
   */
  lemma SyncReverseRunsIff(f: Controller, ctx: SyncContext, pObj: Document, vObj: Document)
    requires ctx.Valid()
    ensures Mutated(Virtual) in Sync(f, ctx, pObj, vObj).trace
            <==> && ObjectMatches(f.selector, vObj)
                 && ForwardRun(f, ctx, pObj, vObj).err.None?
                 && ForwardRun(f, ctx, pObj, vObj).result == ResultNone
  {
  }

  /**
   * Error policy of an in-scope pass: when the executor run that ended the
   * pass failed, an invalid-class error becomes a retry request with no
   * error, and any other error a hard error naming the object.
   */
  lemma SyncErrorPolicy(f: Controller, ctx: SyncContext, pObj: Document, vObj: Document)
    requires ObjectMatches(f.selector, vObj)
    ensures var out := Sync(f, ctx, pObj, vObj);
            var forward := ForwardRun(f, ctx, pObj, vObj);
            var reverse := ReverseRun(f, ctx, pObj, vObj);
            var physicalPrefix := "failed to patch physical " + Describe(f.kind, pObj) + ": ";
            var virtualPrefix := "failed to patch virtual " + Describe(f.kind, vObj) + ": ";
            && (forward.err.Some? ==>
                  && (out.result.requeue <==> IsInvalid(forward.err.value))
                  && (out.err.None? <==> IsInvalid(forward.err.value))
                  && (out.err.Some? ==> physicalPrefix <= out.err.value.message))
            && (forward.err.None? && forward.result == ResultNone && reverse.err.Some? ==>
                  && (out.result.requeue <==> IsInvalid(reverse.err.value))
                  && (out.err.None? <==> IsInvalid(reverse.err.value))
                  && (out.err.Some? ==> virtualPrefix <= out.err.value.message))
            && (out.err.Some? ==> !IsInvalid(out.err.value))
  {
  }

  /**
   * A retry is requested only after a write that the storage refused as
   * invalid: the last step of the pass is a body or status patch whose
   * reply was an invalid-class error.
   */
  lemma SyncRequeueOnlyAfterInvalidWrite(f: Controller, ctx: SyncContext, pObj: Document, vObj: Document)
    requires ctx.Valid()
    ensures var out := Sync(f, ctx, pObj, vObj);
            out.result.requeue ==>
              var last := out.trace[|out.trace| - 1];
              var client := if last.side == Physical then ctx.physicalClient else ctx.virtualClient;
              && last.Issued? && (last.call.Patch? || last.call.PatchStatus?)
              && client.respond(last.call).Refused? && IsInvalid(client.respond(last.call).err)
  {
    var out := Sync(f, ctx, pObj, vObj);
    if out.result.requeue {
      assert ObjectMatches(f.selector, vObj);
      var forward := ForwardRun(f, ctx, pObj, vObj);
      if forward.err.Some? {
        RequeuedRunEndsInRefusedWrite(ctx.physicalClient, pObj, ForwardMutation(f, vObj));
      } else {
        var reverse := ReverseRun(f, ctx, pObj, vObj);
        RequeuedRunEndsInRefusedWrite(ctx.virtualClient, vObj, ReverseMutation(f, pObj));
        assert out.trace[|out.trace| - 1] == reverse.trace[|reverse.trace| - 1];
      }
    }
  }

  /** An executor run that failed with an invalid-class error ended on a write the client refused with it. */
  lemma RequeuedRunEndsInRefusedWrite(c: Client, obj: Document, mutate: Document -> Result<Document, Error>)
    ensures var run := ExecuteObjectPatch(c, obj, mutate);
            run.err.Some? && IsInvalid(run.err.value) ==>
              var last := run.trace[|run.trace| - 1];
              && last.Issued? && last.side == c.side && (last.call.Patch? || last.call.PatchStatus?)
              && c.respond(last.call) == Refused(run.err.value)
  {
  }

  /**
   * The forward rules patch the physical object, reading the virtual one:
   * when the interpreter fails on (pObj, vObj), the pass writes nothing and
   * reports a hard error for the physical object.
   */
  lemma SyncForwardFailureIsHard(f: Controller, ctx: SyncContext, pObj: Document, vObj: Document)
    requires ObjectMatches(f.selector, vObj)
    requires f.interpreter.apply(pObj, vObj, f.patches, VirtualToHost(Namespace(vObj), f.physicalName)).Failure?
    ensures var out := Sync(f, ctx, pObj, vObj);
            var cause := f.interpreter.apply(pObj, vObj, f.patches, VirtualToHost(Namespace(vObj), f.physicalName)).error;
            var prefix := "failed to patch physical " + Describe(f.kind, pObj) + ": ";
            && !out.result.requeue
            && out.err == Some(Wrap(prefix, MutationError(pObj, Wrap("error applying patches: ", cause))))
            && out.trace == [Mutated(ctx.physicalClient.side)]
  {
  }

  /** An object the selector matches loses its physical copy on its next pass (a consequence of the negated test). */
  lemma SelectedObjectIsDeleted(f: Controller, ctx: SyncContext, pObj: Document, vObj: Document)
    requires f.selector.Some? && f.selector.value.matches(Labels(vObj))
    ensures Sync(f, ctx, pObj, vObj).trace == [Issued(ctx.physicalClient.side, Delete(pObj))]
  {
  }

  /**
   * The reverse rules read the physical object as it was handed to the pass,
   * not the forward pass's working copy: when the interpreter fails on
   * (vObj, pObj), the pass reports a hard error for the virtual object (a
   * name the cache cannot resolve ends here too).
   */
  lemma SyncReverseFailureIsHard(f: Controller, ctx: SyncContext, pObj: Document, vObj: Document)
    requires ObjectMatches(f.selector, vObj)
    requires ForwardRun(f, ctx, pObj, vObj).err.None?
    requires ForwardRun(f, ctx, pObj, vObj).result == ResultNone
    requires f.interpreter.apply(vObj, pObj, f.reversePatches, HostToVirtual(f.namecache)).Failure?
    ensures var out := Sync(f, ctx, pObj, vObj);
            var cause := f.interpreter.apply(vObj, pObj, f.reversePatches, HostToVirtual(f.namecache)).error;
            var prefix := "failed to patch virtual " + Describe(f.kind, vObj) + ": ";
            && !out.result.requeue
            && out.err == Some(Wrap(prefix, MutationError(vObj, Wrap("error applying patches: ", cause))))
            && CallsOn(out.trace, Virtual) == [] && CallsOn(out.trace, Physical) == []
  {
  }
}

=== FILE: name_resolvers.dfy ===
/**
 * Name translation across the virtual/physical boundary, used by the patch
 * interpreter when it rewrites a reference field.
 */
module NameResolution {
  import opened Wrappers
  import opened Storage

  /**
   * The backing name cache: maps a host name and field path to the name of
   * the virtual object, the empty string meaning "not known".
   */
  datatype NameCache = NameCache(resolveName: (string, string) -> string)

  /**
   * The two resolvers. `VirtualToHost` carries the namespace of the virtual
   * object and the SDK's physical-name function; `HostToVirtual` carries
   * the name cache.
   */
  datatype NameResolver =
    | VirtualToHost(namespace: string, physicalName: (string, string) -> string)
    | HostToVirtual(namecache: NameCache)

  /** The error a cache miss yields. */
  function UnknownHostName(name: string): Error
  {
    Plain("could not translate " + name + " host resource name to vcluster resource name")
  }

  function TranslateName(r: NameResolver, name: string, path: string): (res: Result<string, Error>)
    ensures r.VirtualToHost? ==> res.Success? && res.value == r.physicalName(name, r.namespace)
    ensures r.HostToVirtual? ==> (res.Failure? <==> r.namecache.resolveName(name, path) == "")
    ensures r.HostToVirtual? && res.Success? ==>
              res.value == r.namecache.resolveName(name, path) && res.value != ""
    ensures res.Failure? ==> res.error == UnknownHostName(name) && !IsInvalid(res.error)
  {
    match r
    case VirtualToHost(namespace, physicalName) =>
      Success(physicalName(name, namespace))
    case HostToVirtual(cache) =>
      var n := cache.resolveName(name, path);
      if n == "" then Failure(UnknownHostName(name)) else Success(n)
  }

  /** The forward resolver never consults the field path. */
  lemma ForwardIgnoresPath(namespace: string, physicalName: (string, string) -> string,
                           name: string, path1: string, path2: string)
    ensures TranslateName(VirtualToHost(namespace, physicalName), name, path1)
         == TranslateName(VirtualToHost(namespace, physicalName), name, path2)
  {
  }

  /**
   * A reverse translation either yields a non-empty name or fails: the
   * empty string is never handed out as a translated name.
   */
  lemma ReverseNeverYieldsEmptyName(cache: NameCache, name: string, path: string)
    ensures TranslateName(HostToVirtual(cache), name, path) != Success("")
  {
  }
}

=== FILE: storage.dfy ===
/**
 * The storage side of a reconciliation pass: the errors a client can return,
 * the write calls the syncer issues, and the trace that records them.
 * The clients themselves are opaque: a `Client` only answers calls.
 */
module Storage {
  import opened Documents

  /** Which cluster a client talks to. */
  datatype Side = Physical | Virtual

  /** The status reason the API server gives to a structurally invalid write. */
  const ReasonInvalid: string := "Invalid"

  /**
   * An error value. `StatusError` is a typed API error carrying a reason;
   * `Plain` is an error built by formatting another one into a message,
   * which keeps the text and loses the type.
   */
  datatype Error =
    | StatusError(reason: string, message: string)
    | Plain(message: string)

  /** The "invalid" classification that turns a failure into a retry request. */
  predicate IsInvalid(e: Error)
  {
    e.StatusError? && e.reason == ReasonInvalid
  }

  /** `fmt.Errorf(prefix + "%v", e)`: the message survives, the error class does not. */
  function Wrap(prefix: string, e: Error): (w: Error)
    ensures !IsInvalid(w)
    ensures prefix <= w.message && w.message[|prefix|..] == e.message
  {
    Plain(prefix + e.message)
  }

  /**
   * A write issued to a client. A patch carries the two images it was
   * computed from; the JSON patch bytes between them are left opaque.
   */
  datatype Call =
    | Create(obj: Document)
    | Patch(obj: Document, from: Document, to: Document)
    | PatchStatus(obj: Document, from: Document, to: Document)
    | Delete(obj: Document)

  /** A client's answer: the stored image of the object, or an error. */
  datatype Reply = Stored(image: Document) | Refused(err: Error)

  datatype Client = Client(side: Side, respond: Call -> Reply)

  /** One step of a pass: the mutation function ran, or a write was issued. */
  datatype Event =
    | Mutated(side: Side)
    | Issued(side: Side, call: Call)

  /** The writes of `trace` issued to the client of `side`, in order. */
  function CallsOn(trace: seq<Event>, side: Side): (calls: seq<Call>)
    ensures |calls| <= |trace|
    ensures forall k :: k in calls <==> Issued(side, k) in trace
    decreases |trace|
  {
    if trace == [] then []
    else
      var rest := CallsOn(trace[1..], side);
      assert trace == [trace[0]] + trace[1..];
      match trace[0]
      case Issued(s, k) => if s == side then [k] + rest else rest
      case Mutated(_) => rest
  }

  /** A trace with no step on `side` issued no write to it. */
  lemma NoCallsOn(trace: seq<Event>, side: Side)
    requires forall i :: 0 <= i < |trace| && trace[i].Issued? ==> trace[i].side != side
    ensures CallsOn(trace, side) == []
  {
  }

  lemma {:induction false} CallsOnAppend(a: seq<Event>, b: seq<Event>, side: Side)
    ensures CallsOn(a + b, side) == CallsOn(a, side) + CallsOn(b, side)
    decreases |a|
  {
    if a == [] {
      assert a + b == b;
    } else {
      assert (a + b)[1..] == a[1..] + b;
      CallsOnAppend(a[1..], b, side);
    }
  }
}

=== FILE: wrappers.dfy ===
/** Failure-carrying values shared by the whole model. */
module Wrappers {

  /** An optional value; `None` plays the role of Go's `nil`. */
  datatype Option<+T> = None | Some(value: T)

  /** The outcome of a call that either yields a value or fails with an error. */
  datatype Result<+T, +E> = Success(value: T) | Failure(error: E)
}
